=== FILE: README.md ===
# Login, registration and product-page decision logic

A Dafny model of the client-side decisions of a small single-page shop front:
the login page, the registration page and the product page. Each page's
handler is modelled as a pure step from the page state (and, for the network,
an abstract server outcome) to the state it leaves behind: the error line, the
request it sends, what it keeps in `localStorage`, where it navigates, what it
alerts, and the product list.

- `browser.dfy` — module `Browser`: `Option`, the outcome of one network call
  (`HttpFail` with the body's `message` as `||` sees it, falsy or truthy with
  the text `new Error` makes of it; `Thrown` with an exception's message;
  `Success` with the parsed ok body, or, for the product post, which never
  reads that body, any ok response), `localStorage` as a map, the JavaScript
  `message || fallback` rule and `String(undefined)`.
- `email.dfy` — module `Email`: the unanchored email test `\S+@\S+\.\S+`
  shared by both forms, in three forms proved equal: the regular expression
  read literally (`RegexTest`), its minimal-witness form (`LooksLikeEmail`,
  what the forms use) and a one-pass scanner (`ScanEmail`). `\s` is the
  ECMAScript WhiteSpace and LineTerminator set.
- `validation.dfy` — module `Validation`: each form's checks as an ordered
  list, run by `FirstFailure` (the first failing check's message wins), with
  the login form's two checks and the registration form's four.
- `login.dfy`, `register.dfy`, `home.dfy` — modules `Login`, `Register`,
  `Home`: the three pages' handlers.
- `flow.dfy` — module `Flow`: the token the login page stores is the one the
  product page sends as `Authorization: Bearer <token>`.

## Model

| member | source | states |
|---|---|---|
| Browser.MessageOr | src/pages/login.jsx:43 | `message || fallback` yields the message's text when the message is truthy and the fallback when it is falsy; the result is empty exactly when a truthy message has empty text or a falsy one meets an empty fallback |
| Browser.FailureText | src/pages/login.jsx:41-55 | The text a failed call shows: a non-ok reply's truthy message, or the fallback for a falsy one, or an exception's own message; it is empty exactly for a truthy message with empty text, a falsy message with an empty fallback, or an exception without a message |
| Browser.StringOf | src/pages/login.jsx:50 | `localStorage.setItem` stores `String(value)`: a present string as it is, an absent value as "undefined"; the stored text is truthy exactly unless the value was the empty string, so a reply without a token still leaves a token the product page treats as present |
| Email.RegexTestIffLooksLikeEmail | src/pages/login.jsx:21 | The regular expression's unanchored test holds exactly when some '@' has a non-blank character before it, a non-empty non-blank run after it up to a '.', and a non-blank character after that '.' |
| Email.ScanEmail | src/pages/register.jsx:23 | A single left-to-right pass answers true exactly when the email test holds |
| Email.AcceptsShortAddress | src/pages/register.jsx:23-26 | "a@b.co" passes the email test |
| Email.RejectsBadEmail | src/pages/login.jsx:21-24 | "bad-email" fails the email test |
| Email.RejectsSpaceBeforeAt | src/pages/login.jsx:21 | "a @b.c" fails: whitespace before the '@' breaks the match |
| Validation.FirstFailure | src/pages/register.jsx:18-36 | Checks run in order: the result is Ok exactly when every check passes, and otherwise carries the message of the first check that fails |
| Validation.ValidateLogin | src/pages/login.jsx:16-24 | Login validation passes exactly when both fields are non-empty and the email passes the test; an empty field gives "Please fill in all fields", else a bad email gives "Please enter a valid email" |
| Validation.ValidateRegister | src/pages/register.jsx:18-36 | Registration validation passes exactly when all four fields are non-empty, the email passes, the password has at least 6 characters and equals the confirmation; each failure gives the message of the first failing check in that order |
| Validation.RegisterEmptyFieldWins | src/pages/register.jsx:18-21 | Any empty registration field gives "Please fill in all fields" whatever the other fields hold |
| Validation.ShortMismatchReportsLength | src/pages/register.jsx:28-36 | A short password that also differs from its confirmation reports the length error, not the mismatch |
| Validation.PasswordLengthBoundary | src/pages/register.jsx:28-31 | A 5-character password is refused as too short; a 6-character one passes |
| Validation.RegisterEmailSamples | src/pages/register.jsx:23-26 | With the other fields valid, "a@b.co" passes registration and "bad-email" gives "Please enter a valid email" |
| Validation.LoginIgnoresPasswordLength | src/pages/login.jsx:16-26 | Login applies no length check: any non-empty password with a passing email validates |
| Validation.LoginEmailSamples | src/pages/login.jsx:21-24 | "a@b.co" with a one-character password validates; "bad-email" gives "Please enter a valid email" |
| Validation.RegisterValidImpliesLoginValid | src/pages/register.jsx:18-36 | Every registration that validates also passes the login checks with the same email and password |
| Login.Submit | src/pages/login.jsx:12-59 | A request carrying exactly the email and password is sent exactly when validation passes; only a successful reply navigates, to "/product", with no error; storage changes at most under "token", and not at all unless the login succeeded |
| Login.ErrorClearedFirst | src/pages/login.jsx:14 | The previous error has no influence on what a submission leaves behind |
| Login.InvalidFormSendsNothing | src/pages/login.jsx:16-24 | A form that fails validation sends nothing, is unaffected by any network outcome, keeps storage and location, and shows the right validation message |
| Login.FailureShowsMessage | src/pages/login.jsx:41-55 | A failed login shows the server's message when it is truthy, "Login failed" when it is falsy, or the exception's message, and stores no token |
| Login.SuccessStoresToken | src/pages/login.jsx:46-53 | A successful login stores the reply's token under "token" ("undefined" when the reply has none), navigates to "/product" and shows no error |
| Login.InvalidCredentialsShown | src/pages/login.jsx:41-44 | A non-ok reply with message "Invalid credentials" shows exactly that and leaves storage unchanged |
| Login.ShortPasswordIsPosted | src/pages/login.jsx:16-39 | "a@b.co" with the password "x" is posted as is |
| Register.Submit | src/pages/register.jsx:14-74 | Only the error line and busy flag change; a request with exactly name, email and password is sent exactly when validation passes; only success alerts "Registration successful!" and navigates to "/"; any other ending shows an error unless the failure's text is empty (a truthy message such as `[]`, or an exception without a message) |
| Register.ErrorClearedFirst | src/pages/register.jsx:16 | The previous error has no influence on what a submission leaves behind |
| Register.InvalidFormSendsNothing | src/pages/register.jsx:18-36 | A form that fails any check sends nothing, is unaffected by any network outcome, and shows one of the four validation messages: the first failing one |
| Register.EmptyFieldReported | src/pages/register.jsx:18-21 | Any empty field shows "Please fill in all fields" and sends nothing |
| Register.ShortBeforeMismatch | src/pages/register.jsx:28-36 | Password "12345" with confirmation "54321" shows the length error and sends nothing |
| Register.OutcomeHandling | src/pages/register.jsx:59-71 | A non-ok reply shows the server's truthy message or "Registration failed" for a falsy one; an exception shows its message; success alerts once and goes to "/"; the error line is empty exactly after success, a truthy message with empty text, or an exception without a message |
| Home.Authorization | src/pages/home.jsx:31 | The header value is "Bearer " followed by exactly the token |
| Home.FetchProducts | src/pages/home.jsx:16-64 | Listing starts busy with no error, ends not busy, leaves the dialog alone; it sends one list request with the stored token exactly when a non-empty token is stored; success shows the reply's list with no error; any failure shows the two sample records and the failure's message |
| Home.Mount | src/pages/home.jsx:5-14 | Mounting lists once from the initial state (empty list, busy, dialog closed and empty) and sends at most one request |
| Home.FailureFallsBackToSamples | src/pages/home.jsx:44-60 | After any failed listing the list is Motorbike/98000 and Car/450000 with the same creator, and the empty notice is not shown |
| Home.NoTokenSendsNothing | src/pages/home.jsx:21-24 | With no token, or an empty one, nothing is sent and the banner says "No token found. Please login again." |
| Home.ListingFailureMessage | src/pages/home.jsx:37-40 | A non-ok listing reply shows its truthy message, or "Failed to fetch products" for a falsy one; the banner is empty exactly when the message is truthy with empty text |
| Home.LoadingBrackets | src/pages/home.jsx:16-63 | While a listing is in flight the page keeps the list it had; the banner ends up empty exactly when the listing succeeded or, with a token, its failure text was empty; a missing token always leaves a message |
| Home.EmptyNoticeOnlyForEmptyReply | src/pages/home.jsx:155-159 | "No products found" shows after a listing exactly when an ok reply brought an empty list |
| Home.HandleCreate | src/pages/home.jsx:66-103 | Without a token only an alert happens; otherwise the product is posted with the dialog's name and price; success closes and clears the dialog and lists once; failure alerts the failure text and changes nothing |
| Home.EmptyMessageAlertsEmpty | src/pages/home.jsx:88-101 | A failed creation whose reply's message is truthy with empty text alerts an empty text and leaves the page as it was |
| Home.ListCountConcat | src/pages/home.jsx:93-99 | The number of list requests in a sequence of requests is additive over concatenation, which is how the create request and the refetch's request are counted together |
| Home.CreateRefetchesOnce | src/pages/home.jsx:93-102 | A successful creation is followed by exactly one list request whose result the page then shows, not busy and with the dialog closed; a failed one sends no list request and leaves the page as it was |
| Home.SliceFrom | src/pages/home.jsx:147 | `slice` with a negative start yields the final segment of length min(-start, length) |
| Home.CreatorDisplay | src/pages/home.jsx:147 | The creator shown is the final segment of the id of length min(8, length): the whole id when it has at most 8 characters, nothing when the id is absent |
| Home.SampleCreatorDisplay | src/pages/home.jsx:47-60 | The sample records show "5ca8d813" as their creator |
| Flow.LoginThenListSendsBearer | src/pages/home.jsx:21-35 | After a successful login returning a non-empty token, the product page's listing sends "Bearer " followed by that token |
| Flow.MissingTokenFieldIsSentAsUndefined | src/pages/login.jsx:50 | A successful login reply without a token field leads the product page to send "Bearer undefined" |
| Flow.EmptyTokenFallsBack | src/pages/home.jsx:21-24 | A successful login returning an empty token leaves the product page sending nothing and showing the sample records |
| Flow.SampleTokenHeader | src/pages/home.jsx:31 | The login reply token "abc123" leads to the header "Bearer abc123" |

## Left out

- Rendering: JSX, the `styles` objects and the injected style sheets; the model stops at the state a page renders from.
- Effects: `fetch`, `response.json()`, `localStorage`, `navigate` and `alert` are not performed; they are the outcome parameters and the request, storage, navigation and alert fields of each step.
- Login.Submit, Home.FetchProducts and Home.HandleCreate assume `localStorage` never throws. In a browser, `getItem` and `setItem` can throw a SecurityError when site storage is blocked, and `setItem` can throw a QuotaExceededError when the store is full. The throw lands in the same `catch`. At src/pages/login.jsx:50 the page then shows the error and does not navigate, although `Login.Submit` navigates on every successful reply. At src/pages/home.jsx:21 the page shows the banner and the sample records. At src/pages/home.jsx:68 it alerts.
- Home.FetchProducts, Home.HandleCreate and Flow.LoginThenListSendsBearer assume `fetch` accepts any header value. In a browser, `fetch` rejects a header value that contains CR, LF or NUL, or a character above U+00FF, with a TypeError, and no request goes out (src/pages/home.jsx:31, 78). It also strips leading and trailing spaces and tabs. The model records "Bearer " followed by the token exactly as stored.
- Timing: async ordering and the in-flight moment of the login and registration requests are not modelled. Their `loading` flag is recorded after the request settles. The product page's listing records both its starting and its settled state.
- `handleCreateProduct` does not await its refetch. The model's settled state is the one after that refetch settles, and user actions in between are not modelled.
- Double submission is not modelled. The login and registration pages guard against it only by disabling their button while `loading` is set. The product dialog's Save button (src/pages/home.jsx:181) has no guard at all, so a double click posts twice.
- The base URL and the endpoint paths are not modelled, and neither is `console.log`. The product page reads `import.meta.env.backendurl` (src/pages/home.jsx:27, 74), while the login and registration pages read `VITE_BACKEND_URL` (src/pages/login.jsx:31, src/pages/register.jsx:45).
- `Number(newPrice)` and the `Intl.NumberFormat` price format are floating-point and locale behaviour. The create request carries the dialog's price text instead, and prices are integers.
- The "+ Add Product" and "Cancel" buttons (src/pages/home.jsx:125, 186) only set `showDialog`. They are not modelled as steps.
- src/App.jsx is a three-route table with no logic.
- Strings are sequences of Unicode scalar values. `password.length` and `slice` count UTF-16 code units in JavaScript, and the two differ outside the Basic Multilingual Plane.
- A JSON `message` is represented only by whether `||` finds it truthy and by the text `new Error` makes of it; the conversion itself is not modelled. An absent, null, false, 0 or "" message is `Falsy` and shows the fallback text. A truthy one is `TruthyText` of its `String` form: 42 is `TruthyText("42")`, and `[]` or `[""]` is `TruthyText("")`, which shows an empty error line (on the product dialog, an empty alert), as the pages do.
- Browser.FailureText, Register.Submit and Register.OutcomeHandling do not promise that a non-ok reply shows a non-empty text: with a truthy `message` whose text is empty, the page shows nothing.
- A `token` that is not a string is not modelled: an absent field is `None` and is stored as "undefined", while a null `token` would be stored as "null".
- The browser's own form checks are not modelled. Both email fields are `<input type="email">` in a form without `noValidate` (src/pages/login.jsx:67-76, src/pages/register.jsx:82-102). Before firing `submit`, a browser checks such a field against the HTML email syntax and shows its own prompt on failure, so for "bad-email" the page's handler never runs. The browser also strips line breaks and leading and trailing whitespace from the value. The model starts at `handleSubmit` with the field values as given, so the email samples (`Validation.LoginEmailSamples`, `Validation.RegisterEmailSamples`, `Email.RejectsSpaceBeforeAt`) describe the handler, not what the browser shows.
- A successful list reply whose body is not an array is not modelled. Products are always a sequence of records.

=== FILE: browser.dfy ===
/**
 * The browser facilities the three pages lean on, reduced to values:
 * an optional value, the outcome of one `fetch` round trip, `localStorage`
 * as a finite map, and the two pieces of JavaScript coercion the pages
 * depend on (`message || fallback` on a reply's message, and storing
 * `undefined`).
 */
module Browser {

  datatype Option<+T> = None | Some(value: T)

  /**
   * The `message` field of an error reply's JSON body, as the pages use it in
   * `new Error(errData.message || fallback)`:
   * - Falsy: `||` passes over it, because it is absent, null, false, 0 or "";
   * - TruthyText: `||` keeps it, and `new Error` turns it into `text`, which is
   *   `String(value)`: "42" for 42, and "" for a truthy value such as [] or [""].
   */
  datatype ReplyMessage = Falsy | TruthyText(text: string)

  /**
   * What one network call ends in, as seen by the page:
   * - HttpFail: the response was not `ok`, and its JSON body's `message` field
   *   is `message`;
   * - Thrown: an exception reached the page's `catch` with this
   *   `errorMessage`: fetch rejected, a non-ok body was not JSON, or an ok
   *   body that the page parses was not JSON;
   * - Success: an `ok` response the page got through. Login, registration and
   *   listing parse the ok body, so for them it is an ok response whose body
   *   parses, and `payload` is that body; creating a product never reads the
   *   ok body, so for it any ok response is a Success.
   */
  datatype ServerOutcome<+T> =
    | HttpFail(message: ReplyMessage)
    | Thrown(errorMessage: string)
    | Success(payload: T)

  /** `localStorage`: string keys to string values. */
  type Storage = map<string, string>

  /** The one key the application stores under. */
  const TokenKey: string := "token"

  /** `localStorage.getItem(key)`: null (None) for a missing key. */
  function GetItem(storage: Storage, key: string): Option<string> {
    if key in storage then Some(storage[key]) else None
  }

  /** JavaScript truthiness of a string that may be null or undefined. */
  predicate Truthy(s: Option<string>) {
    s.Some? && s.value != ""
  }

  /**
   * `message || fallback`: the message's text when it is truthy, else the
   * fallback. The result is empty only for an empty fallback or a truthy
   * message whose text is empty.
   */
  function MessageOr(message: ReplyMessage, fallback: string): (r: string)
    ensures message.Falsy? ==> r == fallback
    ensures message.TruthyText? ==> r == message.text
    ensures r == "" <==> message == TruthyText("") || (message.Falsy? && fallback == "")
  {
    match message
    case Falsy => fallback
    case TruthyText(t) => t
  }

  /**
   * The text `setError(err.message)` (or `alert(err.message)`) shows for a
   * failed call whose page throws `new Error(errData.message || fallback)` on a
   * non-ok response: the reply's message or the fallback, or the exception's
   * own message. It is empty exactly when the text chosen is empty.
   */
  function FailureText<T>(outcome: ServerOutcome<T>, fallback: string): (r: string)
    requires !outcome.Success?
    ensures outcome.HttpFail? && outcome.message.Falsy? ==> r == fallback
    ensures outcome.HttpFail? && outcome.message.TruthyText? ==> r == outcome.message.text
    ensures outcome.Thrown? ==> r == outcome.errorMessage
    ensures r == "" <==>
      || outcome == HttpFail(TruthyText(""))
      || (outcome == HttpFail(Falsy) && fallback == "")
      || outcome == Thrown("")
  {
    match outcome
    case HttpFail(m) => MessageOr(m, fallback)
    case Thrown(m) => m
  }

  /**
   * `localStorage.setItem` stores `String(v)`: an absent value becomes
   * "undefined". What is stored reads back as truthy unless the value was the
   * empty string, so a missing value is never stored as a missing token.
   */
  function StringOf(v: Option<string>): (r: string)
    ensures v.Some? ==> r == v.value
    ensures v.None? ==> r == "undefined"
    ensures Truthy(Some(r)) <==> v != Some("")
  {
    match v
    case Some(s) => s
    case None => "undefined"
  }
}

=== FILE: email.dfy ===
/**
 * The email test shared by the login and registration pages:
 * `/\S+@\S+\.\S+/.test(email)`. The pattern is not anchored, so the test
 * holds when SOME substring of the input is matched by it in full.
 *
 * Three views of the same test, proved equal:
 * - RegexTest: the regular expression read literally (a span [a, b) split
 *   into non-empty runs of non-whitespace around an '@' and a '.');
 * - LooksLikeEmail: the smallest such span, pinned by the '@' at i and the
 *   '.' at j (one non-whitespace character on each outer side);
 * - ScanEmail: a single left-to-right pass, as an implementation would run it.
 */
module Email {

  /**
   * JavaScript's `\s`: the ECMAScript WhiteSpace and LineTerminator code
   * points (tab, line feed, vertical tab, form feed, carriage return, space,
   * no-break space, ogham space mark, the U+2000..U+200A spaces, line and
   * paragraph separators, narrow no-break space, medium mathematical space,
   * ideographic space and the byte order mark).
   */
  predicate IsWhitespace(c: char) {
    var n := c as int;
    || (0x09 <= n <= 0x0D)
    || n == 0x20
    || n == 0xA0
    || n == 0x1680
    || (0x2000 <= n <= 0x200A)
    || n == 0x2028
    || n == 0x2029
    || n == 0x202F
    || n == 0x205F
    || n == 0x3000
    || n == 0xFEFF
  }

  /** Every character of s[lo..hi] is matched by `\S`. */
  predicate NonSpace(s: string, lo: int, hi: int)
    requires 0 <= lo <= hi <= |s|
  {
    forall k :: lo <= k < hi ==> !IsWhitespace(s[k])
  }

  /**
   * s[a..b] is matched in full by `\S+@\S+\.\S+`, the literal '@' being
   * s[i] and the literal '.' being s[j].
   */
  predicate SpanMatch(s: string, a: int, i: int, j: int, b: int) {
    && 0 <= a < i
    && i + 1 < j
    && j + 1 < b <= |s|
    && s[i] == '@'
    && s[j] == '.'
    && NonSpace(s, a, i)
    && NonSpace(s, i + 1, j)
    && NonSpace(s, j + 1, b)
  }

  /** `RegExp.prototype.test` of the unanchored pattern, read literally. */
  ghost predicate RegexTest(s: string) {
    exists a, i, j, b :: SpanMatch(s, a, i, j, b)
  }

  /**
   * The minimal match around an '@' at i and a '.' at j: a non-whitespace
   * character before the '@', a non-empty non-whitespace run between the two,
   * and a non-whitespace character after the '.'.
   */
  predicate MatchAt(s: string, i: int, j: int) {
    && 1 <= i
    && i + 2 <= j
    && j + 1 < |s|
    && s[i] == '@'
    && s[j] == '.'
    && !IsWhitespace(s[i - 1])
    && NonSpace(s, i + 1, j)
    && !IsWhitespace(s[j + 1])
  }

  /** The email test the pages apply. */
  predicate LooksLikeEmail(s: string) {
    exists i, j | 0 <= i < j < |s| :: MatchAt(s, i, j)
  }

  /** The minimal-witness form decides exactly the regular expression's test. */
  lemma RegexTestIffLooksLikeEmail(s: string)
    ensures RegexTest(s) <==> LooksLikeEmail(s)
  {
    if RegexTest(s) {
      var a, i, j, b :| SpanMatch(s, a, i, j, b);
      assert !IsWhitespace(s[i - 1]);
      assert !IsWhitespace(s[j + 1]);
      assert MatchAt(s, i, j);
    }
    if LooksLikeEmail(s) {
      var i, j :| 0 <= i < j < |s| && MatchAt(s, i, j);
      assert SpanMatch(s, i - 1, i, j, j + 2);
    }
  }

  /**
   * One pass over s. `start` is where the current run of non-whitespace
   * began, `at` the first '@' of that run that has a character of the run
   * before it (or -1). A '.' at p then completes a match exactly when that
   * '@' lies at least two places back and s[p+1] is non-whitespace.
   */
  method ScanEmail(s: string) returns (found: bool)
    ensures found <==> LooksLikeEmail(s)
  {
    var start := 0;
    var at := -1;
    var p := 0;
    while p < |s|
      invariant 0 <= start <= p <= |s|
      invariant NonSpace(s, start, p)
      invariant start > 0 ==> IsWhitespace(s[start - 1])
      invariant at == -1 ==> forall k :: start < k < p ==> s[k] != '@'
      invariant at != -1 ==> start < at < p && s[at] == '@'
      invariant at != -1 ==> forall k :: start < k < at ==> s[k] != '@'
      invariant forall i, j :: 0 <= i < j < p ==> !MatchAt(s, i, j)
    {
      if IsWhitespace(s[p]) {
        forall i | 0 <= i < p
          ensures !MatchAt(s, i, p)
        {
        }
        start, at := p + 1, -1;
      } else {
        forall i | 0 <= i < p && MatchAt(s, i, p)
          ensures start < i && at != -1 && at <= i
        {
          NoSpaceBeforeRun(s, start, i - 1, p);
        }
        if s[p] == '.' && at != -1 && at + 2 <= p && p + 1 < |s| && !IsWhitespace(s[p + 1]) {
          assert MatchAt(s, at, p);
          return true;
        }
        if s[p] == '@' && at == -1 && start < p {
          at := p;
        }
      }
      p := p + 1;
    }
    found := false;
  }

  /** A run that starts just after a whitespace character cannot reach back past it. */
  lemma NoSpaceBeforeRun(s: string, start: int, lo: int, hi: int)
    requires 0 <= lo <= hi <= |s| && start <= |s|
    requires start > 0 ==> IsWhitespace(s[start - 1])
    requires NonSpace(s, lo, hi) && start <= hi
    ensures start <= lo
  {
  }

  /** "a@b.co" passes the test. */
  lemma AcceptsShortAddress()
    ensures LooksLikeEmail("a@b.co")
  {
    assert MatchAt("a@b.co", 1, 3);
  }

  /** "bad-email" has no '@', so it fails the test. */
  lemma RejectsBadEmail()
    ensures !LooksLikeEmail("bad-email")
  {
  }

  /** A space splits the address: "a @b.c" fails, since nothing non-blank precedes the '@' in its run. */
  lemma RejectsSpaceBeforeAt()
    ensures !LooksLikeEmail("a @b.c")
  {
  }
}

=== FILE: flow.dfy ===
/**
 * The one piece of state the pages share: the token the login page stores
 * is the one the product page reads back and sends as a bearer credential.
 */
module Flow {
  import opened Browser
  import Validation
  import Email
  import Login
  import Home

  /** After a successful login, the product page's listing carries "Bearer " and the returned token. */
  lemma LoginThenListSendsBearer(page: Login.LoginPage, storage: Storage, token: string, outcome: ServerOutcome<seq<Home.Product>>)
    requires Validation.ValidateLogin(page.email, page.password) == Validation.Ok
    requires token != ""
    ensures var session := Login.Submit(page, storage, Success(Login.LoginReply(Some(token)))).storage;
      Home.Mount(session, outcome).requests == [Home.ListProducts("Bearer " + token)]
  {
  }

  /**
   * A successful reply without a `token` field stores the string "undefined",
   * which the product page then sends as if it were a token.
   */
  lemma MissingTokenFieldIsSentAsUndefined(page: Login.LoginPage, storage: Storage, outcome: ServerOutcome<seq<Home.Product>>)
    requires Validation.ValidateLogin(page.email, page.password) == Validation.Ok
    ensures var session := Login.Submit(page, storage, Success(Login.LoginReply(None))).storage;
      Home.Mount(session, outcome).requests == [Home.ListProducts("Bearer undefined")]
  {
    var session := Login.Submit(page, storage, Success(Login.LoginReply(None))).storage;
    Login.SuccessStoresToken(page, storage, Login.LoginReply(None));
    assert session[TokenKey] == "undefined";
    assert Home.Authorization("undefined") == "Bearer undefined";
  }

  /** An empty token is stored but treated as missing: the product page sends nothing and shows the samples. */
  lemma EmptyTokenFallsBack(page: Login.LoginPage, storage: Storage, outcome: ServerOutcome<seq<Home.Product>>)
    requires Validation.ValidateLogin(page.email, page.password) == Validation.Ok
    ensures var session := Login.Submit(page, storage, Success(Login.LoginReply(Some("")))).storage;
      && Home.Mount(session, outcome).requests == []
      && Home.Mount(session, outcome).finished.error == Home.NoTokenMessage
      && Home.Mount(session, outcome).finished.products == Home.SampleProducts
  {
  }

  /** The login reply {token: "abc123"} makes the listing send "Authorization: Bearer abc123". */
  lemma SampleTokenHeader(outcome: ServerOutcome<seq<Home.Product>>)
    ensures var session := Login.Submit(Login.LoginPage("a@b.co", "pw", "", false), map[], Success(Login.LoginReply(Some("abc123")))).storage;
      Home.Mount(session, outcome).requests == [Home.ListProducts("Bearer abc123")]
  {
    Email.AcceptsShortAddress();
    LoginThenListSendsBearer(Login.LoginPage("a@b.co", "pw", "", false), map[], "abc123", outcome);
    assert "Bearer " + "abc123" == "Bearer abc123";
  }
}

=== FILE: home.dfy ===
/**
 * The product page: on mount it lists the products with the stored token,
 * falling back to two fixed sample records on any failure; its dialog posts a
 * new product and, when that succeeds, closes and lists again. Each handler is
 * a step from one page state to the next, with the network as parameters.
 */
module Home {
  import opened Browser

  /** A product as the service returns it; `createdBy` is None when the field is absent. */
  datatype Product = Product(id: string, name: string, price: int, createdBy: Option<string>)

  /** The page's state: the list, the busy flag, the error banner and the dialog with its two fields. */
  datatype HomeState = HomeState(
    products: seq<Product>,
    loading: bool,
    error: string,
    showDialog: bool,
    newName: string,
    newPrice: string)

  /** The two requests the page sends; `price` is the dialog's text, before numeric conversion. */
  datatype Request =
    | ListProducts(authorization: string)
    | CreateProduct(authorization: string, name: string, price: string)

  const NoTokenMessage: string := "No token found. Please login again."
  const FetchFailed: string := "Failed to fetch products"
  const CreateFailed: string := "Failed to create product"
  const BearerPrefix: string := "Bearer "

  /** How many trailing characters of the creator id the cards show. */
  const CreatorSuffixLength: nat := 8

  const SampleOwner: string := "68e0d3b8da61b1455ca8d813"

  /** The records shown when listing fails. */
  const SampleProducts: seq<Product> := [
    Product("68e0ef36c123846091c85277", "Motorbike", 98000, Some(SampleOwner)),
    Product("68e0ef39c123846091c85279", "Car", 450000, Some(SampleOwner))
  ]

  /** The state before the first render: empty list, busy, no error, dialog closed and empty. */
  const Initial: HomeState := HomeState([], true, "", false, "", "")

  /** The `Authorization` header value for a token. */
  function Authorization(token: string): (h: string)
    ensures |h| == |BearerPrefix| + |token|
    ensures h[..|BearerPrefix|] == BearerPrefix
    ensures h[|BearerPrefix|..] == token
  {
    BearerPrefix + token
  }

  /** The token `localStorage` yields, when JavaScript would treat it as present. */
  predicate HasToken(storage: Storage) {
    Truthy(GetItem(storage, TokenKey))
  }

  /** One run of `fetchProducts`: the state it starts in, what it sends, and the state it settles in. */
  datatype FetchStep = FetchStep(started: HomeState, requests: seq<Request>, finished: HomeState)

  /** Listing succeeds only with a token and an ok reply. */
  predicate Listed(storage: Storage, outcome: ServerOutcome<seq<Product>>) {
    HasToken(storage) && outcome.Success?
  }

  /** The banner text after a failed listing. */
  function ListingError(storage: Storage, outcome: ServerOutcome<seq<Product>>): string
    requires !Listed(storage, outcome)
  {
    if !HasToken(storage) then NoTokenMessage else FailureText(outcome, FetchFailed)
  }

  /** `fetchProducts` from its first statement until its request settles. */
  function FetchProducts(st: HomeState, storage: Storage, outcome: ServerOutcome<seq<Product>>): (r: FetchStep)
    ensures r.started.loading && r.started.error == ""
    ensures r.started.(loading := st.loading, error := st.error) == st
    ensures !r.finished.loading
    ensures r.finished.showDialog == st.showDialog
    ensures r.finished.newName == st.newName && r.finished.newPrice == st.newPrice
    ensures HasToken(storage) ==> r.requests == [ListProducts(Authorization(storage[TokenKey]))]
    ensures !HasToken(storage) ==> r.requests == []
    ensures Listed(storage, outcome) ==> r.finished.products == outcome.payload && r.finished.error == ""
    ensures !Listed(storage, outcome) ==> r.finished.products == SampleProducts
    ensures !Listed(storage, outcome) ==> r.finished.error == ListingError(storage, outcome)
  {
    var started := st.(loading := true, error := "");
    if !HasToken(storage) then
      FetchStep(started, [], started.(error := NoTokenMessage, products := SampleProducts, loading := false))
    else
      var requests := [ListProducts(Authorization(storage[TokenKey]))];
      match outcome
      case Success(data) =>
        FetchStep(started, requests, started.(products := data, loading := false))
      case _ =>
        FetchStep(started, requests, started.(error := FailureText(outcome, FetchFailed), products := SampleProducts, loading := false))
  }

  /** What mounting the page does: one listing from the initial state. */
  function Mount(storage: Storage, outcome: ServerOutcome<seq<Product>>): (r: FetchStep)
    ensures r.started == Initial
    ensures !r.finished.showDialog && r.finished.newName == "" && r.finished.newPrice == ""
    ensures |r.requests| <= 1
  {
    FetchProducts(Initial, storage, outcome)
  }

  /** The "No products found" notice: an empty list once loading is over. */
  predicate ShowsEmptyState(st: HomeState) {
    |st.products| == 0 && !st.loading
  }

  /** After any failed listing the list is the two sample records, never empty. */
  lemma FailureFallsBackToSamples(st: HomeState, storage: Storage, outcome: ServerOutcome<seq<Product>>)
    requires !Listed(storage, outcome)
    ensures var r := FetchProducts(st, storage, outcome);
      && r.finished.products == SampleProducts
      && |r.finished.products| == 2
      && r.finished.products[0].name == "Motorbike" && r.finished.products[0].price == 98000
      && r.finished.products[1].name == "Car" && r.finished.products[1].price == 450000
      && r.finished.products[0].createdBy == r.finished.products[1].createdBy
      && !ShowsEmptyState(r.finished)
  {
  }

  /** Without a token nothing is sent and the banner asks the user to log in again. */
  lemma NoTokenSendsNothing(st: HomeState, storage: Storage, outcome: ServerOutcome<seq<Product>>)
    requires TokenKey !in storage || storage[TokenKey] == ""
    ensures var r := FetchProducts(st, storage, outcome);
      && r.requests == []
      && r.finished.error == NoTokenMessage
      && r.finished.products == SampleProducts
  {
  }

  /**
   * A non-ok listing reply shows the server's message, or the generic one when
   * that is falsy; a truthy message with empty text leaves the banner empty.
   */
  lemma ListingFailureMessage(st: HomeState, storage: Storage, message: ReplyMessage)
    requires HasToken(storage)
    ensures var r := FetchProducts(st, storage, HttpFail(message));
      && (message.TruthyText? ==> r.finished.error == message.text)
      && (message.Falsy? ==> r.finished.error == FetchFailed)
      && (r.finished.error == "" <==> message == TruthyText(""))
  {
  }

  /**
   * While a listing is in flight the page keeps the list it had. The banner
   * ends up empty exactly when the listing succeeded or its failure text was
   * empty (a truthy message such as [] or an exception without a message);
   * a missing token always leaves a message.
   */
  lemma LoadingBrackets(st: HomeState, storage: Storage, outcome: ServerOutcome<seq<Product>>)
    ensures var r := FetchProducts(st, storage, outcome);
      && r.started.products == st.products
      && (r.finished.error == "" <==>
            Listed(storage, outcome)
            || (HasToken(storage) && (outcome == HttpFail(TruthyText("")) || outcome == Thrown(""))))
      && (!HasToken(storage) ==> r.finished.error != "")
  {
  }

  /** "No products found" appears after a listing exactly when an ok reply brought an empty list. */
  lemma EmptyNoticeOnlyForEmptyReply(st: HomeState, storage: Storage, outcome: ServerOutcome<seq<Product>>)
    ensures ShowsEmptyState(FetchProducts(st, storage, outcome).finished)
        <==> Listed(storage, outcome) && outcome.payload == []
  {
  }

  /** One run of `handleCreateProduct`: what it sends, what it alerts, and the state it settles in. */
  datatype CreateStep = CreateStep(requests: seq<Request>, alerts: seq<string>, finished: HomeState)

  /**
   * `handleCreateProduct`. It never reads an ok reply's body, so `created` is
   * a Success for any ok response, an empty or non-JSON body included, and
   * Thrown only when `fetch` rejects or a non-ok body is not JSON. On success
   * it closes and clears the dialog and then runs `fetchProducts` once, whose
   * outcome is `refetch`; on failure it alerts and leaves the page as it was.
   */
  function HandleCreate(
    st: HomeState,
    storage: Storage,
    created: ServerOutcome<()>,
    refetch: ServerOutcome<seq<Product>>): (r: CreateStep)
    ensures !HasToken(storage) ==> r == CreateStep([], [NoTokenMessage], st)
    ensures HasToken(storage) ==>
      |r.requests| >= 1 && r.requests[0] == CreateProduct(Authorization(storage[TokenKey]), st.newName, st.newPrice)
    ensures HasToken(storage) && created.Success? ==>
      && r.requests[1..] == [ListProducts(Authorization(storage[TokenKey]))]
      && r.alerts == []
      && !r.finished.showDialog && r.finished.newName == "" && r.finished.newPrice == ""
    ensures HasToken(storage) && !created.Success? ==>
      && r.requests[1..] == []
      && r.alerts == [FailureText(created, CreateFailed)]
      && r.finished == st
  {
    var token := GetItem(storage, TokenKey);
    if !Truthy(token) then
      CreateStep([], [NoTokenMessage], st)
    else
      var post := CreateProduct(Authorization(token.value), st.newName, st.newPrice);
      match created
      case Success(_) =>
        var closed := st.(showDialog := false, newName := "", newPrice := "");
        var listing := FetchProducts(closed, storage, refetch);
        CreateStep([post] + listing.requests, [], listing.finished)
      case _ =>
        CreateStep([post], [FailureText(created, CreateFailed)], st)
  }

  /** The number of list requests in a sequence of requests. */
  function ListCount(requests: seq<Request>): nat {
    if requests == [] then 0
    else (if requests[0].ListProducts? then 1 else 0) + ListCount(requests[1..])
  }

  /** Counting list requests distributes over concatenation. */
  lemma {:induction false} ListCountConcat(a: seq<Request>, b: seq<Request>)
    ensures ListCount(a + b) == ListCount(a) + ListCount(b)
  {
    if a != [] {
      assert (a + b)[0] == a[0];
      assert (a + b)[1..] == a[1..] + b;
      ListCountConcat(a[1..], b);
    } else {
      assert a + b == b;
    }
  }

  /**
   * A successful creation is followed by exactly one listing, whose result the
   * page ends up showing, with the dialog closed and cleared; a failed one
   * sends no listing and changes nothing.
   */
  lemma CreateRefetchesOnce(st: HomeState, storage: Storage, created: ServerOutcome<()>, refetch: ServerOutcome<seq<Product>>)
    requires HasToken(storage)
    ensures var r := HandleCreate(st, storage, created, refetch);
      && (created.Success? ==> ListCount(r.requests) == 1)
      && (created.Success? ==> r.finished.products == (if refetch.Success? then refetch.payload else SampleProducts))
      && (created.Success? ==> !r.finished.loading && !r.finished.showDialog)
      && (!created.Success? ==> ListCount(r.requests) == 0 && r.finished == st)
  {
    var r := HandleCreate(st, storage, created, refetch);
    ListCountConcat([r.requests[0]], r.requests[1..]);
    assert r.requests == [r.requests[0]] + r.requests[1..];
  }

  /** A failed creation whose reply carries a truthy message with empty text alerts an empty text. */
  lemma EmptyMessageAlertsEmpty(st: HomeState, storage: Storage, refetch: ServerOutcome<seq<Product>>)
    requires HasToken(storage)
    ensures var r := HandleCreate(st, storage, HttpFail(TruthyText("")), refetch);
      && r.alerts == [""]
      && r.finished == st
  {
  }

  /** `s.slice(begin)`: a negative begin counts back from the end and is clamped at 0. */
  function SliceFrom(s: string, begin: int): (r: string)
    ensures IsSuffix(r, s)
    ensures begin < 0 ==> |r| == Min(-begin, |s|)
    ensures begin >= 0 ==> |r| == |s| - Min(begin, |s|)
  {
    var from := if begin < 0 then Max(|s| + begin, 0) else Min(begin, |s|);
    s[from..]
  }

  function Min(a: int, b: int): int {
    if a <= b then a else b
  }

  function Max(a: int, b: int): int {
    if a <= b then b else a
  }

  /** t is a final segment of s. */
  predicate IsSuffix(t: string, s: string) {
    |t| <= |s| && s[|s| - |t|..] == t
  }

  /** What a card shows after "Created By:": the last eight characters of the creator id. */
  function CreatorDisplay(createdBy: Option<string>): (r: string)
    ensures createdBy.None? ==> r == ""
    ensures createdBy.Some? ==> |r| == Min(CreatorSuffixLength, |createdBy.value|)
    ensures createdBy.Some? ==> IsSuffix(r, createdBy.value)
    ensures createdBy.Some? && |createdBy.value| <= CreatorSuffixLength ==> r == createdBy.value
  {
    match createdBy
    case None => ""
    case Some(s) => SliceFrom(s, -(CreatorSuffixLength as int))
  }

  /** The sample records show "5ca8d813" as their creator. */
  lemma SampleCreatorDisplay()
    ensures CreatorDisplay(SampleProducts[0].createdBy) == "5ca8d813"
    ensures CreatorDisplay(SampleProducts[1].createdBy) == "5ca8d813"
  {
  }
}

=== FILE: login.dfy ===
/**
 * The login page's submit handler: validate the two fields, post the
 * credentials, and on success keep the returned token under "token" and go
 * to the product page. The network is the `outcome` parameter; it is only
 * consulted when the form passes validation, which is when the page posts.
 */
module Login {
  import opened Browser
  import opened Validation

  const LoginFailed: string := "Login failed"
  const ProductRoute: string := "/product"

  /** The page's state: its two fields, the error line and the busy flag. */
  datatype LoginPage = LoginPage(email: string, password: string, error: string, loading: bool)

  /** The JSON body of the login request: exactly the email and the password. */
  datatype Credentials = Credentials(email: string, password: string)

  /**
   * The parsed JSON body of an ok reply; `token` is None when the field is
   * absent. An ok reply whose body is not JSON throws while parsing and is a
   * Thrown outcome.
   */
  datatype LoginReply = LoginReply(token: Option<string>)

  /** What one submission leaves behind. */
  datatype LoginStep = LoginStep(
    page: LoginPage,
    request: Option<Credentials>,
    storage: Storage,
    navigateTo: Option<string>)

  /** `handleSubmit`, from the moment the form is submitted until its request settles. */
  function Submit(page: LoginPage, storage: Storage, outcome: ServerOutcome<LoginReply>): (r: LoginStep)
    ensures r.page.email == page.email && r.page.password == page.password
    ensures r.request.Some? <==> ValidateLogin(page.email, page.password) == Ok
    ensures r.request.Some? ==> r.request.value == Credentials(page.email, page.password)
    ensures r.request.Some? ==> !r.page.loading
    ensures r.request.None? ==> r.page.loading == page.loading
    ensures r.navigateTo.Some? <==> r.request.Some? && outcome.Success?
    ensures r.navigateTo.Some? ==> r.navigateTo.value == ProductRoute && r.page.error == ""
    ensures forall key :: key != TokenKey ==> GetItem(r.storage, key) == GetItem(storage, key)
    ensures r.navigateTo.None? ==> GetItem(r.storage, TokenKey) == GetItem(storage, TokenKey)
  {
    var cleared := page.(error := "");
    match ValidateLogin(page.email, page.password)
    case Err(msg) =>
      LoginStep(cleared.(error := msg), None, storage, None)
    case Ok =>
      var request := Some(Credentials(page.email, page.password));
      match outcome
      case Success(reply) =>
        LoginStep(cleared.(loading := false), request, storage[TokenKey := StringOf(reply.token)], Some(ProductRoute))
      case _ =>
        LoginStep(cleared.(error := FailureText(outcome, LoginFailed), loading := false), request, storage, None)
  }

  /**
   * The error line is cleared before any check runs: what a submission leaves
   * behind does not depend on the error shown before it.
   */
  lemma ErrorClearedFirst(page: LoginPage, previous: string, storage: Storage, outcome: ServerOutcome<LoginReply>)
    ensures Submit(page.(error := previous), storage, outcome) == Submit(page, storage, outcome)
  {
  }

  /**
   * An empty field shows "Please fill in all fields", and a well-formed-looking
   * email is demanded next; in both cases nothing is posted, so the network's
   * answer plays no part and storage and location stay as they were.
   */
  lemma InvalidFormSendsNothing(page: LoginPage, storage: Storage, o1: ServerOutcome<LoginReply>, o2: ServerOutcome<LoginReply>)
    requires ValidateLogin(page.email, page.password).Err?
    ensures Submit(page, storage, o1) == Submit(page, storage, o2)
    ensures Submit(page, storage, o1).request.None?
    ensures Submit(page, storage, o1).storage == storage
    ensures Submit(page, storage, o1).navigateTo.None?
    ensures page.email == "" || page.password == "" ==> Submit(page, storage, o1).page.error == FillAllFields
    ensures page.email != "" && page.password != "" ==> Submit(page, storage, o1).page.error == InvalidEmail
  {
  }

  /**
   * A non-ok reply shows the server's message, or "Login failed" when that is
   * falsy; an exception shows its own message; no token is stored either way.
   */
  lemma FailureShowsMessage(page: LoginPage, storage: Storage, outcome: ServerOutcome<LoginReply>)
    requires ValidateLogin(page.email, page.password) == Ok
    requires !outcome.Success?
    ensures var r := Submit(page, storage, outcome);
      && r.storage == storage
      && r.navigateTo.None?
      && (outcome.HttpFail? && outcome.message.TruthyText? ==> r.page.error == outcome.message.text)
      && (outcome.HttpFail? && outcome.message.Falsy? ==> r.page.error == LoginFailed)
      && (outcome.Thrown? ==> r.page.error == outcome.errorMessage)
  {
  }

  /**
   * A successful reply stores its token under "token" (the string "undefined"
   * when the reply has none) and sends the user to "/product".
   */
  lemma SuccessStoresToken(page: LoginPage, storage: Storage, reply: LoginReply)
    requires ValidateLogin(page.email, page.password) == Ok
    ensures var r := Submit(page, storage, Success(reply));
      && GetItem(r.storage, TokenKey) == Some(StringOf(reply.token))
      && (reply.token.Some? ==> GetItem(r.storage, TokenKey) == reply.token)
      && r.navigateTo == Some(ProductRoute)
      && r.page.error == ""
  {
  }

  /** A 400/401 reply with message "Invalid credentials" shows exactly that and stores nothing. */
  lemma InvalidCredentialsShown(storage: Storage)
    ensures var r := Submit(LoginPage("a@b.co", "pw", "", false), storage, HttpFail(TruthyText("Invalid credentials")));
      && r.page.error == "Invalid credentials"
      && r.storage == storage
      && r.request == Some(Credentials("a@b.co", "pw"))
  {
    Email.AcceptsShortAddress();
  }

  /** Any non-empty password goes out with a well-formed email: login does not check its length. */
  lemma ShortPasswordIsPosted(storage: Storage, outcome: ServerOutcome<LoginReply>)
    ensures Submit(LoginPage("a@b.co", "x", "", false), storage, outcome).request == Some(Credentials("a@b.co", "x"))
  {
    Email.AcceptsShortAddress();
  }
}

=== FILE: register.dfy ===
/**
 * The registration page's submit handler: four ordered checks, then a post of
 * name, email and password; on success an alert and a return to the login
 * page at "/". No token is involved and nothing is stored.
 */
module Register {
  import opened Browser
  import opened Validation

  const RegistrationFailed: string := "Registration failed"
  const RegisteredAlert: string := "Registration successful!"
  const LoginRoute: string := "/"

  /** The page's state: its four fields, the error line and the busy flag. */
  datatype RegisterPage = RegisterPage(
    name: string,
    email: string,
    password: string,
    confirmPassword: string,
    error: string,
    loading: bool)

  /** The JSON body of the registration request; the confirmation is not part of it. */
  datatype Registration = Registration(name: string, email: string, password: string)

  /** What one submission leaves behind. */
  datatype RegisterStep = RegisterStep(
    page: RegisterPage,
    request: Option<Registration>,
    alerts: seq<string>,
    navigateTo: Option<string>)

  /** The four checks of the form, in the page's order. */
  function Validate(page: RegisterPage): ValidationResult {
    ValidateRegister(page.name, page.email, page.password, page.confirmPassword)
  }

  /**
   * `handleSubmit`, from the moment the form is submitted until its request
   * settles. The page parses an ok reply's body but uses nothing from it, so
   * a Success carries no payload; an ok reply whose body is not JSON throws
   * while parsing and is a Thrown outcome.
   */
  function Submit(page: RegisterPage, outcome: ServerOutcome<()>): (r: RegisterStep)
    ensures r.page.(error := page.error, loading := page.loading) == page
    ensures r.request.Some? <==> Validate(page) == Ok
    ensures r.request.Some? ==> r.request.value == Registration(page.name, page.email, page.password)
    ensures r.request.Some? ==> !r.page.loading
    ensures r.request.None? ==> r.page.loading == page.loading
    ensures r.navigateTo.Some? <==> r.request.Some? && outcome.Success?
    ensures r.navigateTo.Some? ==> r.navigateTo.value == LoginRoute && r.page.error == "" && r.alerts == [RegisteredAlert]
    ensures r.navigateTo.None? ==> r.alerts == [] && (r.page.error != "" || outcome == Thrown("") || outcome == HttpFail(TruthyText("")))
  {
    var cleared := page.(error := "");
    match Validate(page)
    case Err(msg) =>
      RegisterStep(cleared.(error := msg), None, [], None)
    case Ok =>
      var request := Some(Registration(page.name, page.email, page.password));
      match outcome
      case Success(_) =>
        RegisterStep(cleared.(loading := false), request, [RegisteredAlert], Some(LoginRoute))
      case _ =>
        RegisterStep(cleared.(error := FailureText(outcome, RegistrationFailed), loading := false), request, [], None)
  }

  /** The error line is cleared before any check runs. */
  lemma ErrorClearedFirst(page: RegisterPage, previous: string, outcome: ServerOutcome<()>)
    ensures Submit(page.(error := previous), outcome) == Submit(page, outcome)
  {
  }

  /**
   * Every failed check returns before a request is built: nothing is posted,
   * the network's answer plays no part, and the error line holds the message
   * of the first failing check.
   */
  lemma InvalidFormSendsNothing(page: RegisterPage, o1: ServerOutcome<()>, o2: ServerOutcome<()>)
    requires Validate(page).Err?
    ensures Submit(page, o1) == Submit(page, o2)
    ensures Submit(page, o1).request.None?
    ensures Submit(page, o1).navigateTo.None?
    ensures Submit(page, o1).page.error == Validate(page).msg
    ensures Submit(page, o1).page.error in {FillAllFields, InvalidEmail, PasswordTooShort, PasswordMismatch}
  {
  }

  /** An empty field is reported as such whatever the other three fields hold. */
  lemma EmptyFieldReported(page: RegisterPage, outcome: ServerOutcome<()>)
    requires page.name == "" || page.email == "" || page.password == "" || page.confirmPassword == ""
    ensures Submit(page, outcome).page.error == FillAllFields
    ensures Submit(page, outcome).request.None?
  {
  }

  /** A short password that also mismatches is reported as too short, and nothing is posted. */
  lemma ShortBeforeMismatch(outcome: ServerOutcome<()>)
    ensures Submit(RegisterPage("n", "a@b.co", "12345", "54321", "", false), outcome).page.error == PasswordTooShort
    ensures Submit(RegisterPage("n", "a@b.co", "12345", "54321", "", false), outcome).request.None?
  {
    Email.AcceptsShortAddress();
  }

  /**
   * A non-ok reply shows the server's message, or "Registration failed" when
   * that is falsy; success alerts once and returns to the login page. The
   * error line stays empty only after success, or when the failure's text is
   * empty: a truthy message such as [] or an exception without a message.
   */
  lemma OutcomeHandling(page: RegisterPage, outcome: ServerOutcome<()>)
    requires Validate(page) == Ok
    ensures var r := Submit(page, outcome);
      && (outcome.HttpFail? && outcome.message.TruthyText? ==> r.page.error == outcome.message.text)
      && (outcome.HttpFail? && outcome.message.Falsy? ==> r.page.error == RegistrationFailed)
      && (outcome.Thrown? ==> r.page.error == outcome.errorMessage)
      && (outcome.Success? ==> r.navigateTo == Some(LoginRoute) && r.alerts == [RegisteredAlert])
      && (!outcome.Success? ==> r.navigateTo.None? && r.alerts == [])
      && (r.page.error == "" <==> outcome.Success? || outcome == HttpFail(TruthyText("")) || outcome == Thrown(""))
  {
  }
}

=== FILE: validation.dfy ===
/**
 * Client-side form validation of the login and registration pages. Each page
 * runs an ordered list of checks; the first check that fails decides the
 * message shown, and the request is built only when every check passes.
 */
module Validation {
  import opened Email

  datatype ValidationResult = Ok | Err(msg: string)

  /** One check of a form: whether it passes, and the message shown when it does not. */
  datatype Check = Check(passes: bool, message: string)

  const FillAllFields: string := "Please fill in all fields"
  const InvalidEmail: string := "Please enter a valid email"
  const PasswordTooShort: string := "Password must be at least 6 characters"
  const PasswordMismatch: string := "Passwords do not match"

  /** The registration page's minimum password length. */
  const MinPasswordLength: nat := 6

  /** Check k is the first one of the list that fails. */
  predicate FirstFailingAt(checks: seq<Check>, k: int) {
    && 0 <= k < |checks|
    && !checks[k].passes
    && forall m :: 0 <= m < k ==> checks[m].passes
  }

  /** Run the checks in order, stopping at the first failure. */
  function FirstFailure(checks: seq<Check>): (r: ValidationResult)
    ensures r.Ok? <==> forall k :: 0 <= k < |checks| ==> checks[k].passes
    ensures forall k :: FirstFailingAt(checks, k) ==> r == Err(checks[k].message)
  {
    if |checks| == 0 then Ok
    else if !checks[0].passes then Err(checks[0].message)
    else
      var rest := FirstFailure(checks[1..]);
      assert forall k :: FirstFailingAt(checks, k) ==> FirstFailingAt(checks[1..], k - 1);
      rest
  }

  /** The checks of the login form, in the order the page runs them. */
  function LoginChecks(email: string, password: string): seq<Check> {
    [ Check(email != "" && password != "", FillAllFields),
      Check(LooksLikeEmail(email), InvalidEmail) ]
  }

  /** The login form's validation: empty fields first, then the email test. */
  function ValidateLogin(email: string, password: string): (r: ValidationResult)
    ensures r.Ok? <==> email != "" && password != "" && LooksLikeEmail(email)
    ensures (email == "" || password == "") ==> r == Err(FillAllFields)
    ensures email != "" && password != "" && !LooksLikeEmail(email) ==> r == Err(InvalidEmail)
  {
    var checks := LoginChecks(email, password);
    assert (email == "" || password == "") ==> FirstFailingAt(checks, 0);
    assert email != "" && password != "" && !LooksLikeEmail(email) ==> FirstFailingAt(checks, 1);
    FirstFailure(checks)
  }

  /** The checks of the registration form, in the order the page runs them. */
  function RegisterChecks(name: string, email: string, password: string, confirmPassword: string): seq<Check> {
    [ Check(AllFilled(name, email, password, confirmPassword), FillAllFields),
      Check(LooksLikeEmail(email), InvalidEmail),
      Check(|password| >= MinPasswordLength, PasswordTooShort),
      Check(password == confirmPassword, PasswordMismatch) ]
  }

  /** All four registration fields hold something. */
  predicate AllFilled(name: string, email: string, password: string, confirmPassword: string) {
    name != "" && email != "" && password != "" && confirmPassword != ""
  }

  /** The registration form's validation: the four checks in order, the first failure winning. */
  function ValidateRegister(name: string, email: string, password: string, confirmPassword: string): (r: ValidationResult)
    ensures r.Ok? <==>
      && AllFilled(name, email, password, confirmPassword)
      && LooksLikeEmail(email)
      && |password| >= MinPasswordLength
      && password == confirmPassword
    ensures !AllFilled(name, email, password, confirmPassword) ==> r == Err(FillAllFields)
    ensures AllFilled(name, email, password, confirmPassword) && !LooksLikeEmail(email) ==> r == Err(InvalidEmail)
    ensures (AllFilled(name, email, password, confirmPassword) && LooksLikeEmail(email)
             && |password| < MinPasswordLength) ==> r == Err(PasswordTooShort)
    ensures (AllFilled(name, email, password, confirmPassword) && LooksLikeEmail(email)
             && |password| >= MinPasswordLength && password != confirmPassword) ==> r == Err(PasswordMismatch)
  {
    var checks := RegisterChecks(name, email, password, confirmPassword);
    assert !AllFilled(name, email, password, confirmPassword) ==> FirstFailingAt(checks, 0);
    assert AllFilled(name, email, password, confirmPassword) && !LooksLikeEmail(email) ==> FirstFailingAt(checks, 1);
    assert (AllFilled(name, email, password, confirmPassword) && LooksLikeEmail(email)
            && |password| < MinPasswordLength) ==> FirstFailingAt(checks, 2);
    assert (AllFilled(name, email, password, confirmPassword) && LooksLikeEmail(email)
            && |password| >= MinPasswordLength && password != confirmPassword) ==> FirstFailingAt(checks, 3);
    FirstFailure(checks)
  }

  /** An empty registration field reports "fill in all fields" whatever the other fields hold. */
  lemma RegisterEmptyFieldWins(name: string, email: string, password: string, confirmPassword: string)
    requires name == "" || email == "" || password == "" || confirmPassword == ""
    ensures ValidateRegister(name, email, password, confirmPassword) == Err(FillAllFields)
  {
  }

  /**
   * The length check comes before the equality check: a short password that
   * also differs from its confirmation reports the length, not the mismatch.
   */
  lemma ShortMismatchReportsLength(name: string, email: string, password: string, confirmPassword: string)
    requires AllFilled(name, email, password, confirmPassword) && LooksLikeEmail(email)
    requires |password| < MinPasswordLength && password != confirmPassword
    ensures ValidateRegister(name, email, password, confirmPassword) == Err(PasswordTooShort)
  {
  }

  /** The length bound is 6: five characters are refused, six pass that check. */
  lemma PasswordLengthBoundary()
    ensures ValidateRegister("n", "a@b.co", "12345", "12345") == Err(PasswordTooShort)
    ensures ValidateRegister("n", "a@b.co", "123456", "123456") == Ok
  {
    AcceptsShortAddress();
  }

  /** The registration email check on the two sample addresses. */
  lemma RegisterEmailSamples()
    ensures ValidateRegister("n", "a@b.co", "secret", "secret") == Ok
    ensures ValidateRegister("n", "bad-email", "secret", "secret") == Err(InvalidEmail)
  {
    AcceptsShortAddress();
    RejectsBadEmail();
  }

  /** Login has no length check: any non-empty password passes with a well-formed email. */
  lemma LoginIgnoresPasswordLength(email: string, password: string)
    requires LooksLikeEmail(email) && password != ""
    ensures ValidateLogin(email, password) == Ok
  {
  }

  /** The login email check on the two sample addresses, with a one-character password. */
  lemma LoginEmailSamples()
    ensures ValidateLogin("a@b.co", "x") == Ok
    ensures ValidateLogin("bad-email", "x") == Err(InvalidEmail)
  {
    AcceptsShortAddress();
    RejectsBadEmail();
  }

  /** A registration form that passes also passes the login checks with the same email and password. */
  lemma RegisterValidImpliesLoginValid(name: string, email: string, password: string, confirmPassword: string)
    requires ValidateRegister(name, email, password, confirmPassword) == Ok
    ensures ValidateLogin(email, password) == Ok
  {
  }
}
